=== FILE: README.md ===
# GDP ETL: a Dafny model of the extraction, conversion and query logic

The repository's script `etl_project_gdp.py` runs a small ETL pipeline. It reads
a web page listing countries by nominal GDP and takes the third `tbody` of the
page. From each country row it takes the country name and the GDP figure in
millions of US dollars. It converts the figure to billions rounded to two
decimals, writes the table to a CSV file and to an SQLite table, and finally
runs one query: every country with `GDP_USD_billions >= 100`.

This project models the decision logic of that script as pure functions over
immutable data and proves properties about them:

- `html.dfy` (`Html`): the parsed page, abstracted. A document is a sequence
  of bodies, a body is a sequence of rows, and a row is a sequence of `td` cells.
  A cell holds its first hyperlink (with that link's child strings) and its own
  child strings. `HasChild` is the parser's `x in tag` test: equality with one
  child, not a substring search.
- `extraction.dfy` (`Extraction`): `extract`. It selects body index 2 and runs
  the row loop, with its skip rules and its exceptions in the order the
  interpreter evaluates them.
- `numbers.dfy` (`Numbers`): comma deletion and Python's base-10 `int(str)`.
  `int()` strips surrounding white space: ASCII tab through carriage return and
  space, plus the non-ASCII white space characters, which it first turns into
  spaces. It accepts an optional sign and digits with single underscores
  between them, and refuses numerals of more than 4300 digits. This file also
  holds the 64-bit
  range of the integer column and the exact rescaling of millions to hundredths
  of a billion.
- `transform.dfy` (`Transformation`): `transform`, one cell (`ConvertGdp`)
  and the whole column (`Transform`).
- `loading.dfy` (`Loading`): the table replacement done by `load_to_db`
  (`if_exists='replace'`) and the `WHERE GDP_USD_billions >= 100` filter.
- `pipeline.dfy` (`Pipeline`): the run from page to query result.
- `scenarios.dfy` (`Scenarios`): concrete cells, rows and pages.

Errors are values, not preconditions. Each exception the script can raise is a
`Failure` carrying the first offending row in document order:

- fewer than three bodies (`table[2]`);
- a linked row with fewer than three cells (`col[2]`);
- an empty link or an empty third cell (`contents[0]`);
- a figure `int()` rejects;
- a figure outside the 64-bit range;
- a stored table whose name differs from `Countries_by_GDP` only in ASCII
  letter case. SQLite treats the two names as one, but the existence test
  before the load compares them exactly, so `CREATE TABLE` raises.

GDP values are exact integers counting hundredths of a billion, so `21427.70`
is `2142770`. The rounding rule for ties is a modelling choice: **round half to
even on the exact quotient** `millions / 10`. The script calls `np.round` on
the binary float `millions / 1000`. Its nominal rule is half to even, but on
ties its result depends on how the float happens to be represented.

Behaviour of the code that the model keeps as it is:

- One unparsable GDP cell fails the whole `transform` step, because the column
  is converted at once (`Transformation.Transform` returns `Failure`). No row
  is dropped.
- The no-data test asks whether U+2014 is one of the third cell's children,
  not whether the cell's text equals it. A longer child such as `"1—2"` does
  not exclude the row (`Scenarios.EmbeddedDashKept`).
- Duplicate countries are not merged: one record per qualifying row
  (`Extraction.ExtractRowsPicks`).
- A page with too few bodies raises `IndexError` at `table[2]`, modelled as
  `MissingTable` (`Extraction.Extract`).

## Model

| member | source | states |
|---|---|---|
| Extraction.InspectRow | etl_project_gdp.py:28-32 | A row is rejected (raises) exactly when it is linked and either has fewer than three cells or passes the dash test with an empty link or empty third cell. It is kept exactly when it qualifies and does not raise, and skipped otherwise. The fault is `TooFewCells` exactly for a short linked row, `EmptyLink` exactly for a qualifying row with an empty link, and `EmptyGdpCell` exactly for a qualifying row with a non-empty link and an empty third cell. A row with no cells or an unlinked first cell is skipped whatever its length, so its third cell is never read. A kept row yields the link's first child and the third cell's first child. |
| Extraction.ExtractRows | etl_project_gdp.py:27-34 | The loop succeeds iff no row of the body raises, and then emits at most one record per row. On failure it reports the first raising row with that row's fault, and every earlier row is fine. |
| Extraction.ExtractRowsPicks | etl_project_gdp.py:27-34 | A successful loop emits exactly one record per qualifying row, taken from that row, in strictly increasing document order. No qualifying row is left out and nothing is merged or deduplicated. |
| Extraction.Extract | etl_project_gdp.py:24-36 | A page with at most two bodies fails with `MissingTable` carrying the body count, and no other input fails that way. On success the records are exactly the qualifying rows of body 2 in document order. The call succeeds exactly when body 2 exists and none of its rows raises. A row error names the first row of body 2 that raises, with that row's fault. |
| Html.HasChild | etl_project_gdp.py:30 | No contract of its own. It is the parser's `'—' not in col[2]` test, as membership among the cell's children, and `Scenarios.PlaceholderRowSkipped` and `Scenarios.EmbeddedDashKept` pin it: an equal child excludes the row and a longer child holding the dash does not. |
| Numbers.Without | etl_project_gdp.py:44 | `str.replace(',', '')` leaves no comma in the result. |
| Numbers.WithoutKeeps | etl_project_gdp.py:44 | Comma deletion keeps every other character with its multiplicity and removes all commas. |
| Numbers.WithoutAppend | etl_project_gdp.py:44 | Deletion distributes over concatenation, so the kept characters stay in their order. |
| Numbers.WithoutAbsent | etl_project_gdp.py:44 | Text without a comma is unchanged by the deletion. |
| Numbers.WithoutIdempotent | etl_project_gdp.py:44 | Deleting the commas twice gives the same text as deleting them once. |
| Numbers.ParseDigits | etl_project_gdp.py:44 | `int()` maps a non-empty string of at most 4300 decimal digits to its base-10 value. |
| Numbers.ParseTooLong | etl_project_gdp.py:44 | A string of more than 4300 digits is refused whatever its value, leading zeros included. |
| Numbers.ParseNegative | etl_project_gdp.py:44 | A leading minus sign before at most 4300 digits gives the negated value. |
| Numbers.ParseSpaced | etl_project_gdp.py:44 | White space `int()` strips, on either side of the digits, is ignored. |
| Numbers.ParseNoMinus | etl_project_gdp.py:44 | Text without a minus sign never parses to a negative number. |
| Numbers.ParseInt | etl_project_gdp.py:44 | No contract of its own. Its meaning is stated by `ParseDigits`, `ParseTooLong`, `ParseNegative`, `ParseSpaced`, `ParseNoMinus`, `ParseIntRejects` and `GroupedRoundTrip`. |
| Numbers.ParseIntRejects | etl_project_gdp.py:44 | A character that is not white space, an ASCII digit, a sign or an underscore, anywhere in the text, makes `int()` fail. |
| Numbers.GroupedDigits | etl_project_gdp.py:44 | A figure written with thousands commas becomes, once the commas are gone, a plain numeral of the same value and with as many digits as the shortest numeral of that value. |
| Numbers.GroupedRoundTrip | etl_project_gdp.py:44 | Round trip: comma removal followed by `int()` recovers every non-negative figure of at most 4300 digits written with thousands commas. |
| Numbers.HundredthsOfBillion | etl_project_gdp.py:45 | The result `h` is within half a unit of `millions / 10`: `10*h` differs from `millions` by at most 5, and on an exact tie `h` is even. |
| Numbers.HundredthsUnique | etl_project_gdp.py:45 | Any value meeting that rounding rule is the one computed, so the rule determines the rounding completely. |
| Numbers.HundredthsMonotone | etl_project_gdp.py:45 | A larger figure in millions never gives a smaller figure in billions. |
| Numbers.HundredthsNonNegative | etl_project_gdp.py:45 | Non-negative millions give non-negative billions. |
| Transformation.ConvertGdpSpec | etl_project_gdp.py:44-45 | A cell converts exactly when its comma-free text parses and fits in 64 bits. The converted value is then within half a hundredth of a billion of the parsed millions. An unparsable cell reports its comma-free text. |
| Transformation.ConvertGrouped | etl_project_gdp.py:44-45 | A figure up to the 64-bit maximum, written with thousands commas, converts to its rounded value in billions. |
| Transformation.ConvertGdp | etl_project_gdp.py:44-45 | No contract of its own. Its meaning is stated by `ConvertGdpSpec`, `ConvertGrouped`, `ConvertRejects` and `ConvertNonNegative`. |
| Transformation.ConvertRejects | etl_project_gdp.py:44 | Any leftover text other than ASCII digits, commas, signs, underscores and white space makes the conversion fail with `NotAnInteger` rather than dropping the row. |
| Transformation.ConvertNonNegative | etl_project_gdp.py:44-45 | A figure with no minus sign converts to a non-negative value. |
| Transformation.Transform | etl_project_gdp.py:43-47 | The step succeeds iff every cell converts. Then row count, row order and every country are kept, and each row's value is that cell's conversion. On failure it reports the first failing row and its fault, with every earlier row convertible. |
| Transformation.Gather | etl_project_gdp.py:44-46 | Given per-row conversion outcomes, it pairs each country with its value in order, or stops at the first failed outcome. |
| Loading.LoadReplace | etl_project_gdp.py:56-60 | `to_sql(..., if_exists='replace')` raises exactly when another stored table's name equals the new one up to ASCII case. Otherwise the table holds exactly the new rows afterwards, the table set gains the name, and every other table is untouched. |
| Loading.LoadSucceeds | etl_project_gdp.py:59 | A store with no other spelling of the name always accepts the load, and the result is the store with that one table replaced. |
| Loading.LoadIdempotent | etl_project_gdp.py:59 | Loading the same rows twice leaves the store as one load does. A load that raises raises again, whatever the rows. |
| Loading.LoadForgetsPrior | etl_project_gdp.py:59 | Neither the table's earlier contents nor whether it existed at all influences the outcome of a load. |
| Loading.AtLeast100 | etl_project_gdp.py:108 | The query result contains only rows of at least 100 billion. Every such row of the table appears as many times as it is stored, and no other row appears. |
| Loading.AtLeast100Append | etl_project_gdp.py:108 | The filter works row by row, so stored order is kept: the answer on two runs of rows is the two answers concatenated. |
| Loading.AtLeast100All | etl_project_gdp.py:108 | A table whose rows all qualify comes back whole. |
| Pipeline.RunEtl | etl_project_gdp.py:93-109 | A page with at most two bodies fails in extraction before any row is read, and any extraction error is the run's error. A store holding another spelling of the table name makes the run fail. On success the GDP table exists, the other tables are unchanged, and every shown row is a stored row of at least 100 billion. |
| Pipeline.RunEtlTable | etl_project_gdp.py:24-59 | After a successful run the table holds one row per qualifying row of the page's third body, in document order. Each row is named by that row's link and holds the converted figure of its third cell. The query shows exactly the stored rows of at least 100 billion. |
| Scenarios.ConvertLargest | etl_project_gdp.py:44-45 | `"21,427,700"` converts to 21427.70 billion. |
| Scenarios.ConvertThreshold | etl_project_gdp.py:44-45 | `"100,000"` converts to 100.00 billion, which the query keeps. |
| Scenarios.ConvertBelowThreshold | etl_project_gdp.py:44-45 | `"50,000"` converts to 50.00 billion, which the query drops. |
| Scenarios.ConvertPlaceholder | etl_project_gdp.py:44 | The em-dash placeholder itself is not a number. |
| Scenarios.RoundingTies | etl_project_gdp.py:45 | Ties go to the even hundredth: 5 million is 0.00 billion and 15 million is 0.02 billion; 1015 million is 1.02 billion. |
| Scenarios.UnlinkedRowSkipped | etl_project_gdp.py:30 | A two-cell footnote row without a link is skipped and does not raise. |
| Scenarios.PlaceholderRowSkipped | etl_project_gdp.py:30 | A linked row whose third cell's child is the em-dash is skipped. |
| Scenarios.EmbeddedDashKept | etl_project_gdp.py:30-32 | A third cell whose child only contains the em-dash inside longer text is kept. |
| Scenarios.ShortLinkedRowRaises | etl_project_gdp.py:30 | A linked row with two cells raises `TooFewCells` at its position. |
| Scenarios.ShortLinkedRowFailsExtract | etl_project_gdp.py:25-30 | A page whose third body holds such a row fails extraction as a whole. |
| Scenarios.TwoBodiesFail | etl_project_gdp.py:24-25 | A page with two bodies fails with `MissingTable(2)`. |
| Scenarios.SampleExtract | etl_project_gdp.py:27-34 | On a body with a header row, three countries, a footnote row and a no-data row, extraction yields the three countries in order. |
| Scenarios.SampleTransform | etl_project_gdp.py:43-47 | The three sample figures convert to 21427.70, 100.00 and 50.00 billion. |
| Scenarios.SampleQuery | etl_project_gdp.py:108 | Of those, the query shows the first two, in order. |
| Scenarios.CaseVariantClashes | etl_project_gdp.py:59 | A store already holding `countries_by_gdp` makes the load of `Countries_by_GDP` raise. |
| Scenarios.SampleRun | etl_project_gdp.py:93-109 | On the sample page and a store with no other spelling of the table name, the whole run stores the three rows and shows the two of at least 100 billion. |

## Left out

- HTTP fetch (`requests.get`, line 18): network I/O. The page arrives as a
  `Document` value.
- HTML parsing and `find_all` (lines 22-28): a foreign library. The page is
  abstracted to bodies, rows and `td` cells. A cell's children are all modelled
  as strings; element children such as a nested `<span>` are not represented.
  `find('a')` is modelled as the cell's first link, whatever its depth.
- pandas DataFrames (lines 23, 33-34, 46): rows are sequences of datatypes. The
  column rename from `GDP_USD_millions` to `GDP_USD_billions` appears as the
  change of record type from `RawRecord.gdpMillions` to
  `Record.gdpHundredths`. The `table_attribs` argument is not modelled; the
  script passes the two column names the records use.
- `load_to_csv` (line 52) and the printing in `run_query` (lines 65-67): file
  and console output.
- `log_progress` (lines 71-80): clock timestamps and log file appends.
- The SQLite connection and its lifecycle (lines 102, 111): the store is a map
  from table names to rows.
- Loading.LoadReplace: the store holds tables only. Views and indexes share
  SQLite's namespace with tables and are not modelled. An index or view named
  like the table, up to ASCII case, makes `to_sql` raise in the script but not
  in the model.
- Pipeline.RunEtl: its success on a store rests on `Loading.LoadReplace`, so a
  store with a view or index under the table's name is not modelled as a failure.
- Numbers.ParseDigits: Python's `int()` also accepts non-ASCII decimal digits
  (for example Arabic-Indic digits). The model rejects them, because it works
  on ASCII digits only.
- Numbers.ParseDigits: the 4300-digit limit is fixed. It is CPython's default
  since version 3.11. Earlier versions have no limit, and the limit can be
  changed at run time or switched off with
  `sys.set_int_max_str_digits`.
- Numbers.HundredthsOfBillion: states exact half-to-even rounding on
  `millions / 10`. It does not reproduce `np.round` on binary floats, whose tie
  results depend on float representation, nor the precision lost above 2^53.
  For example, for 1015 million the script computes `np.round(1.015, 2)`. The
  float closest to 1.015 lies just below it, so the script gives 1.01, while
  `HundredthsOfBillion(1015) == 102`, that is 1.02.
- Transformation.ConvertGdp: the `int64` column is taken to apply Python's
  `int()` to each string and to raise `OverflowError` outside the signed
  64-bit range. The bound depends on the platform: `astype(int)` gives NumPy's
  default integer, which is 32-bit on Windows before NumPy 2, and there the
  range would be that of a 32-bit integer.
- Numbers.ParseIntRejects: a non-ASCII decimal digit, which Python's `int()`
  accepts (`int("٣")` is 3), is counted among the rejected characters.
- Transformation.ConvertRejects: likewise, a cell holding a non-ASCII decimal
  digit is modelled as failing to convert, where the script would read it.
- Loading.AtLeast100Append: the query has no `ORDER BY`, so SQL does not fix
  the order of the returned rows. The model returns them in stored order, which
  is what SQLite's scan of a plain table gives.

=== FILE: extraction.dfy ===
/**
  The extraction step: pick the third `tbody` of the page and turn each
  qualifying row into a raw (country, GDP text) record.
 */
module Extraction {
  import opened Wrappers
  import opened Html

  /** A country row as read from the page: the GDP figure is still text, in millions. */
  datatype RawRecord = RawRecord(country: string, gdpMillions: string)

  /** Why a single row makes the extraction raise. */
  datatype RowFault =
    | TooFewCells     // `col[2]` on a linked row with fewer than three cells
    | EmptyLink       // `a.contents[0]` on a link with no children
    | EmptyGdpCell    // `col[2].contents[0]` on a third cell with no children

  datatype ExtractError =
    | MissingTable(bodies: nat)           // `table[2]` on a page with fewer than three bodies
    | BadRow(row: nat, fault: RowFault)   // the first row, in document order, that raises

  /** Position of the GDP table among the page's bodies. */
  const DataBody: nat := 2

  /** What the loop body does with one row. */
  datatype RowVerdict = Skip | Keep(record: RawRecord) | Reject(fault: RowFault)

  /** The row has a cell and its first cell holds a hyperlink. */
  predicate Linked(row: Row)
  {
    |row| > 0 && row[0].anchor.Some?
  }

  /** The row passes the filter: linked, and its third cell is not the no-data glyph. */
  predicate Qualifies(row: Row)
  {
    Linked(row) && |row| >= 3 && !HasChild(row[2], NoData)
  }

  /** Reading the row raises: a linked row too short to have a third cell, or a
      qualifying row whose link or third cell has no first child. */
  predicate Broken(row: Row)
  {
    Linked(row) &&
    (|row| < 3 ||
     (!HasChild(row[2], NoData) && (|row[0].anchor.value.contents| == 0 || |row[2].contents| == 0)))
  }

  /** `rec` is the record a qualifying row yields: the link's first child as the
      country and the third cell's first child as the GDP text. */
  predicate Yields(row: Row, rec: RawRecord)
  {
    && Qualifies(row)
    && |row[0].anchor.value.contents| > 0
    && |row[2].contents| > 0
    && rec.country == row[0].anchor.value.contents[0]
    && rec.gdpMillions == row[2].contents[0]
  }

  /** One iteration of the row loop; the conditions are tested in the order the
      loop evaluates them, so the third cell is read only for a linked row. */
  function InspectRow(row: Row): (v: RowVerdict)
    ensures v.Reject? <==> Broken(row)
    ensures v.Keep? <==> Qualifies(row) && !Broken(row)
    ensures v.Skip? <==> !Qualifies(row) && !Broken(row)
    ensures v.Keep? ==> Yields(row, v.record)
    ensures v.Reject? && v.fault == TooFewCells <==> Linked(row) && |row| < 3
    ensures v == Reject(EmptyLink) <==> Qualifies(row) && |row[0].anchor.value.contents| == 0
    ensures v == Reject(EmptyGdpCell) <==>
      Qualifies(row) && |row[0].anchor.value.contents| > 0 && |row[2].contents| == 0
  {
    if |row| == 0 then Skip
    else if row[0].anchor.None? then Skip
    else if |row| < 3 then Reject(TooFewCells)
    else if HasChild(row[2], NoData) then Skip
    else if |row[0].anchor.value.contents| == 0 then Reject(EmptyLink)
    else if |row[2].contents| == 0 then Reject(EmptyGdpCell)
    else Keep(RawRecord(row[0].anchor.value.contents[0], row[2].contents[0]))
  }

  /** The row loop over a body: records of the kept rows in document order, or
      the error of the first row that raises. */
  function ExtractRows(rows: seq<Row>): (r: Result<seq<RawRecord>, ExtractError>)
    ensures r.Success? <==> forall i :: 0 <= i < |rows| ==> !Broken(rows[i])
    ensures r.Success? ==> |r.value| <= |rows|
    ensures r.Failure? ==>
      && r.error.BadRow?
      && r.error.row < |rows|
      && Broken(rows[r.error.row])
      && InspectRow(rows[r.error.row]) == Reject(r.error.fault)
      && forall i :: 0 <= i < r.error.row ==> !Broken(rows[i])
    decreases |rows|
  {
    if |rows| == 0 then Success([])
    else
      var last := |rows| - 1;
      assert forall i :: 0 <= i < last ==> rows[..last][i] == rows[i];
      match ExtractRows(rows[..last])
      case Failure(e) => Failure(e)
      case Success(out) =>
        match InspectRow(rows[last])
        case Skip => Success(out)
        case Keep(rec) => Success(out + [rec])
        case Reject(fault) => Failure(BadRow(last, fault))
  }

  /** Positions of the qualifying rows of a body, in increasing order. */
  ghost function QualifyingRows(rows: seq<Row>): seq<nat>
    decreases |rows|
  {
    if |rows| == 0 then []
    else
      var last := |rows| - 1;
      QualifyingRows(rows[..last]) + (if Qualifies(rows[last]) then [last] else [])
  }

  /**
    `out` is what the loop emits for `rows` through the positions `idx`: one
    record per qualifying row, taken from that row, in document order, with no
    qualifying row left out and nothing merged.
   */
  ghost predicate Picks(rows: seq<Row>, idx: seq<nat>, out: seq<RawRecord>)
  {
    && |idx| == |out|
    && (forall k :: 0 <= k < |idx| ==> idx[k] < |rows| && Yields(rows[idx[k]], out[k]))
    && (forall k, l :: 0 <= k < l < |idx| ==> idx[k] < idx[l])
    && (forall i :: 0 <= i < |rows| && Qualifies(rows[i]) ==> i in idx)
  }

  /** A successful row loop emits exactly the qualifying rows, in document order. */
  lemma {:induction false} ExtractRowsPicks(rows: seq<Row>)
    requires ExtractRows(rows).Success?
    ensures Picks(rows, QualifyingRows(rows), ExtractRows(rows).value)
    decreases |rows|
  {
    if |rows| > 0 {
      var last := |rows| - 1;
      var prefix := rows[..last];
      assert forall i :: 0 <= i < last ==> prefix[i] == rows[i];
      ExtractRowsPicks(prefix);
      var idx0 := QualifyingRows(prefix);
      var out0 := ExtractRows(prefix).value;
      var idx := QualifyingRows(rows);
      var out := ExtractRows(rows).value;
      assert !Broken(rows[last]);
      if Qualifies(rows[last]) {
        assert idx == idx0 + [last];
        assert out == out0 + [InspectRow(rows[last]).record];
        forall i | 0 <= i < |rows| && Qualifies(rows[i])
          ensures i in idx
        {
          if i < last {
            assert prefix[i] == rows[i];
            assert i in idx0;
          }
        }
      } else {
        assert idx == idx0;
        assert out == out0;
        forall i | 0 <= i < |rows| && Qualifies(rows[i])
          ensures i in idx
        {
          assert i < last;
          assert prefix[i] == rows[i];
        }
      }
    }
  }

  /** `extract`: the third body of the page, read row by row. */
  function Extract(doc: Document): (r: Result<seq<RawRecord>, ExtractError>)
    ensures r.Failure? && r.error.MissingTable? <==> |doc| <= DataBody
    ensures |doc| <= DataBody ==> r.error.bodies == |doc|
    ensures r.Success? ==> |doc| > DataBody && Picks(doc[DataBody], QualifyingRows(doc[DataBody]), r.value)
    ensures r.Success? <==>
      |doc| > DataBody && forall i :: 0 <= i < |doc[DataBody]| ==> !Broken(doc[DataBody][i])
    ensures r.Failure? && r.error.BadRow? ==>
      && |doc| > DataBody && r.error.row < |doc[DataBody]| && Broken(doc[DataBody][r.error.row])
      && InspectRow(doc[DataBody][r.error.row]) == Reject(r.error.fault)
      && forall i :: 0 <= i < r.error.row ==> !Broken(doc[DataBody][i])
  {
    if |doc| <= DataBody then Failure(MissingTable(|doc|))
    else
      var r := ExtractRows(doc[DataBody]);
      if r.Success? then ExtractRowsPicks(doc[DataBody]); r else r
  }
}

=== FILE: html.dfy ===
/**
  The parsed page, abstracted from the HTML parser's tree to exactly what the
  extraction step looks at: the document's `tbody` sections in document order,
  the `tr` rows of a body, and the `td` cells of a row.
 */
module Html {
  import opened Wrappers

  /** U+2014 EM DASH: the text the GDP table puts in a cell with no reported figure. */
  const NoData: string := "\U{2014}"

  /** The first `a` element inside a cell, with its child strings. */
  datatype Anchor = Anchor(contents: seq<string>)

  /** A `td` cell: its first hyperlink, if any, and its direct child strings. */
  datatype Cell = Cell(anchor: Option<Anchor>, contents: seq<string>)

  /** The `td` cells of one `tr`, in order (header rows hold no `td` cells). */
  type Row = seq<Cell>

  /** The `tr` rows of one `tbody`, in document order. */
  type Body = seq<Row>

  /** Every `tbody` of the page, in document order. */
  type Document = seq<Body>

  /**
    The membership test `x in tag` of the parser: `x` equals one of the tag's
    direct children. It is not a substring search.
   */
  predicate HasChild(cell: Cell, x: string)
  {
    x in cell.contents
  }
}

=== FILE: loading.dfy ===
/**
  The load step and the diagnostic query, over an abstract relational store:
  a map from table names to their rows in insertion order.
 */
module Loading {
  import opened Wrappers
  import opened Transformation

  /** The database file: every table by name, rows in the order they were written. */
  type Database = map<string, seq<Record>>

  const TableName: string := "Countries_by_GDP"

  /** `GDP_USD_billions >= 100`, in hundredths of a billion. */
  const QueryThreshold: int := 10000

  /** Why the load raises. */
  datatype LoadError =
    | NameTaken   // another table's name equals the new one up to ASCII case: `CREATE TABLE` fails

  /** SQLite compares table names with ASCII letters folded to lower case. */
  function FoldCase(s: string): (r: string)
    ensures |r| == |s|
    ensures forall i :: 0 <= i < |s| ==> r[i] == (if 'A' <= s[i] <= 'Z' then s[i] - 'A' + 'a' else s[i])
  {
    seq(|s|, i requires 0 <= i < |s| => if 'A' <= s[i] <= 'Z' then s[i] - 'A' + 'a' else s[i])
  }

  /** Two table names SQLite treats as the same name. */
  predicate SameTableName(a: string, b: string)
  {
    FoldCase(a) == FoldCase(b)
  }

  /** The store holds a table under a different spelling of `name`. The
      existence test asks for `name` spelled exactly, so it misses such a table. */
  predicate Shadowed(db: Database, name: string)
  {
    exists t :: t in db && t != name && SameTableName(t, name)
  }

  /** `to_sql(..., if_exists='replace')`: the named table holds exactly the new
      rows afterwards, whatever it held before; other tables are untouched. A
      table under a different spelling of the name makes the load raise. */
  function LoadReplace(db: Database, name: string, records: seq<Record>): (r: Result<Database, LoadError>)
    ensures r.Failure? <==> exists t :: t in db && t != name && FoldCase(t) == FoldCase(name)
    ensures r.Success? ==>
      && name in r.value && r.value[name] == records
      && r.value.Keys == db.Keys + {name}
      && forall t :: t in db && t != name ==> r.value[t] == db[t]
  {
    if Shadowed(db, name) then Failure(NameTaken) else Success(db[name := records])
  }

  /** A store without another spelling of the name always takes the load. */
  lemma LoadSucceeds(db: Database, name: string, records: seq<Record>)
    requires forall t :: t in db && t != name ==> FoldCase(t) != FoldCase(name)
    ensures LoadReplace(db, name, records) == Success(db[name := records])
  {
  }

  /** Loading the same rows twice leaves the store as loading them once, and a
      load that raised the first time raises again. */
  lemma LoadIdempotent(db: Database, name: string, records: seq<Record>)
    ensures LoadReplace(db, name, records).Success? ==>
      LoadReplace(LoadReplace(db, name, records).value, name, records) == LoadReplace(db, name, records)
    ensures LoadReplace(db, name, records).Failure? ==>
      forall more :: LoadReplace(db, name, more).Failure?
  {
    if LoadReplace(db, name, records).Success? {
      var once := db[name := records];
      assert !Shadowed(once, name);
      assert once[name := records] == once;
    }
  }

  /** What the table held before a load, and whether it existed at all, has no
      influence on the store after it. */
  lemma LoadForgetsPrior(db1: Database, db2: Database, name: string, records: seq<Record>)
    requires db1.Keys - {name} == db2.Keys - {name}
    requires forall t :: t in db1 && t in db2 && t != name ==> db1[t] == db2[t]
    ensures LoadReplace(db1, name, records) == LoadReplace(db2, name, records)
  {
    forall t | t != name
      ensures t in db1 <==> t in db2
    {
      assert t in db1 <==> t in db1.Keys - {name};
      assert t in db2 <==> t in db2.Keys - {name};
    }
    assert Shadowed(db1, name) == Shadowed(db2, name);
    if !Shadowed(db1, name) {
      var m1, m2 := db1[name := records], db2[name := records];
      assert m1.Keys == m2.Keys;
      forall t | t in m1
        ensures m1[t] == m2[t]
      {
        if t != name {
          assert t in db1 && t in db2;
        }
      }
      assert m1 == m2;
      assert LoadReplace(db1, name, records) == Success(m1);
      assert LoadReplace(db2, name, records) == Success(m2);
    }
  }

  /** The rows the query's `WHERE` clause keeps, in stored order. */
  function AtLeast100(records: seq<Record>): (r: seq<Record>)
    ensures |r| <= |records|
    ensures forall x :: x in r ==> x.gdpHundredths >= QueryThreshold
    ensures forall x :: multiset(r)[x] == if x.gdpHundredths >= QueryThreshold then multiset(records)[x] else 0
    decreases |records|
  {
    if |records| == 0 then []
    else
      assert records == [records[0]] + records[1..];
      (if records[0].gdpHundredths >= QueryThreshold then [records[0]] else []) + AtLeast100(records[1..])
  }

  /** The filter works row by row, so stored order is kept: the answer for two
      runs of rows is the two answers one after the other. */
  lemma {:induction false} AtLeast100Append(a: seq<Record>, b: seq<Record>)
    ensures AtLeast100(a + b) == AtLeast100(a) + AtLeast100(b)
    decreases |a|
  {
    if |a| == 0 {
      assert a + b == b;
    } else {
      assert (a + b)[0] == a[0];
      assert (a + b)[1..] == a[1..] + b;
      AtLeast100Append(a[1..], b);
    }
  }

  /** A table whose every row qualifies comes back whole. */
  lemma {:induction false} AtLeast100All(records: seq<Record>)
    requires forall i :: 0 <= i < |records| ==> records[i].gdpHundredths >= QueryThreshold
    ensures AtLeast100(records) == records
    decreases |records|
  {
    if |records| > 0 {
      AtLeast100All(records[1..]);
    }
  }

}

=== FILE: numbers.dfy ===
/**
  The text-to-number part of the transform step: deleting the grouping commas,
  Python's base-10 `int(str)`, the 64-bit integer column, and the rescaling of
  millions to billions rounded to two decimals, done on exact integers.
 */
module Numbers {
  import opened Wrappers

  /** `s` with every occurrence of `c` deleted (`str.replace(c, '')`). */
  function Without(s: string, c: char): (r: string)
    ensures c !in r
  {
    if |s| == 0 then ""
    else (if s[0] == c then "" else [s[0]]) + Without(s[1..], c)
  }

  /** Deleting keeps every other character, with its multiplicity. */
  lemma {:induction false} WithoutKeeps(s: string, c: char)
    ensures multiset(Without(s, c)) == multiset(s)[c := 0]
    decreases |s|
  {
    if |s| > 0 {
      assert s == [s[0]] + s[1..];
      WithoutKeeps(s[1..], c);
    }
  }

  /** Text without the character is left unchanged. */
  lemma {:induction false} WithoutAbsent(s: string, c: char)
    requires c !in s
    ensures Without(s, c) == s
    decreases |s|
  {
    if |s| > 0 {
      assert c !in s[1..];
      WithoutAbsent(s[1..], c);
    }
  }

  /** Deleting distributes over concatenation, so the characters kept stay in order. */
  lemma {:induction false} WithoutAppend(a: string, b: string, c: char)
    ensures Without(a + b, c) == Without(a, c) + Without(b, c)
    decreases |a|
  {
    if |a| == 0 {
      assert a + b == b;
    } else {
      assert (a + b)[0] == a[0];
      assert (a + b)[1..] == a[1..] + b;
      WithoutAppend(a[1..], b, c);
    }
  }

  /** Deleting twice deletes nothing more. */
  lemma WithoutIdempotent(s: string, c: char)
    ensures Without(Without(s, c), c) == Without(s, c)
  {
    WithoutAbsent(Without(s, c), c);
  }

  /**
    The characters `int()` strips from both ends: ASCII tab, line feed,
    vertical tab, form feed, carriage return and space, and the non-ASCII
    white space characters, which `int()` first turns into spaces. The ASCII
    separators U+001C to U+001F count as white space for `str.isspace` but
    are not stripped.
   */
  predicate IsSpace(ch: char)
  {
    || '\t' <= ch <= '\r'
    || ch == ' '
    || ch == '\U{85}' || ch == '\U{A0}' || ch == '\U{1680}'
    || '\U{2000}' <= ch <= '\U{200A}'
    || ch == '\U{2028}' || ch == '\U{2029}' || ch == '\U{202F}' || ch == '\U{205F}'
    || ch == '\U{3000}'
  }

  predicate IsDigit(ch: char)
  {
    '0' <= ch <= '9'
  }

  predicate AllDigits(s: string)
  {
    forall i :: 0 <= i < |s| ==> IsDigit(s[i])
  }

  function DigitValue(ch: char): nat
    requires IsDigit(ch)
  {
    ch as int - '0' as int
  }

  function DigitChar(d: nat): (ch: char)
    requires d < 10
    ensures IsDigit(ch) && DigitValue(ch) == d
  {
    ('0' as int + d) as char
  }

  /** The base-10 value of a digit string, most significant digit first. */
  function DigitsValue(s: string): nat
    requires AllDigits(s)
    decreases |s|
  {
    if |s| == 0 then 0
    else DigitsValue(s[..|s| - 1]) * 10 + DigitValue(s[|s| - 1])
  }

  function Pow10(n: nat): (p: nat)
    ensures p > 0
  {
    if n == 0 then 1 else 10 * Pow10(n - 1)
  }

  /** The value of two digit strings written one after the other. */
  lemma {:induction false} DigitsValueAppend(a: string, b: string)
    requires AllDigits(a) && AllDigits(b)
    ensures AllDigits(a + b)
    ensures DigitsValue(a + b) == DigitsValue(a) * Pow10(|b|) + DigitsValue(b)
    decreases |b|
  {
    var ab := a + b;
    if |b| == 0 {
      assert ab == a;
    } else {
      var n := |b| - 1;
      var b' := b[..n];
      assert AllDigits(b');
      assert ab[..|ab| - 1] == a + b';
      assert ab[|ab| - 1] == b[n];
      DigitsValueAppend(a, b');
      var d := DigitValue(b[n]);
      assert DigitsValue(ab) == DigitsValue(a + b') * 10 + d;
      assert DigitsValue(b) == DigitsValue(b') * 10 + d;
      ShiftDigit(DigitsValue(a), Pow10(n), DigitsValue(b'), d);
    }
  }

  /** Appending one digit to the lower part of a two-part number. */
  lemma ShiftDigit(x: nat, p: nat, y: nat, d: nat)
    ensures (x * p + y) * 10 + d == x * (p * 10) + (y * 10 + d)
  {
  }

  /**
    The digit part Python's `int()` accepts in base 10: one or more digits, with
    single underscores allowed between two digits.
   */
  predicate DigitGroups(s: string)
  {
    && |s| > 0
    && IsDigit(s[0])
    && IsDigit(s[|s| - 1])
    && (forall i :: 0 <= i < |s| ==> IsDigit(s[i]) || s[i] == '_')
    && (forall i :: 0 <= i < |s| - 1 ==> !DoubleUnderscore(s, i))
  }

  /** Positions `i` and `i + 1` both hold an underscore. */
  predicate DoubleUnderscore(s: string, i: nat)
    requires i + 1 < |s|
  {
    s[i] == '_' && s[i + 1] == '_'
  }

  lemma DigitGroupsDigits(s: string)
    requires DigitGroups(s)
    ensures AllDigits(Without(s, '_'))
  {
    var t := Without(s, '_');
    WithoutKeeps(s, '_');
    forall i | 0 <= i < |t|
      ensures IsDigit(t[i])
    {
      assert t[i] in multiset(t);
      assert t[i] in multiset(s);
      assert t[i] in s;
    }
  }

  /** Leading `IsSpace` characters removed. */
  function StripLeft(s: string): string
    decreases |s|
  {
    if |s| > 0 && IsSpace(s[0]) then StripLeft(s[1..]) else s
  }

  /** Trailing `IsSpace` characters removed. */
  function StripRight(s: string): string
    decreases |s|
  {
    if |s| > 0 && IsSpace(s[|s| - 1]) then StripRight(s[..|s| - 1]) else s
  }

  /** Left stripping keeps a suffix and removes only white space before it. */
  lemma {:induction false} StripLeftSpan(s: string)
    ensures |StripLeft(s)| <= |s| && StripLeft(s) == s[|s| - |StripLeft(s)|..]
    ensures forall i :: 0 <= i < |s| - |StripLeft(s)| ==> IsSpace(s[i])
    decreases |s|
  {
    if |s| > 0 && IsSpace(s[0]) {
      StripLeftSpan(s[1..]);
    }
  }

  /** Right stripping keeps a prefix and removes only white space after it. */
  lemma {:induction false} StripRightSpan(s: string)
    ensures |StripRight(s)| <= |s| && StripRight(s) == s[..|StripRight(s)|]
    ensures forall i :: |StripRight(s)| <= i < |s| ==> IsSpace(s[i])
    decreases |s|
  {
    if |s| > 0 && IsSpace(s[|s| - 1]) {
      StripRightSpan(s[..|s| - 1]);
    }
  }

  function Strip(s: string): string
  {
    StripRight(StripLeft(s))
  }

  /** Python's `int(s)` in base 10: surrounding white space, an optional sign,
      then digit groups; `None` where Python raises `ValueError`. */
  function ParseInt(s: string): Option<int>
  {
    ParseStripped(Strip(s))
  }

  /** The most digits `int()` converts from text; longer numerals raise
      `ValueError`, leading zeros included, underscores not counted. */
  const MaxStrDigits: nat := 4300

  /** `int()` on text with no surrounding white space. */
  function ParseStripped(t: string): Option<int>
  {
    var digits := SignedDigits(t);
    if !DigitGroups(digits) || |Without(digits, '_')| > MaxStrDigits then None
    else if |t| > 0 && t[0] == '-' then Some(-(GroupsValue(digits) as int))
    else Some(GroupsValue(digits))
  }

  /** The value of digit groups: the underscores only separate. */
  function GroupsValue(digits: string): nat
    requires DigitGroups(digits)
  {
    DigitGroupsDigits(digits);
    DigitsValue(Without(digits, '_'))
  }

  /** `t` without its sign character, if it starts with one. */
  function SignedDigits(t: string): (d: string)
    ensures |d| >= |t| - 1
  {
    if |t| > 0 && (t[0] == '+' || t[0] == '-') then t[1..] else t
  }

  /** Text with no white space at either end is left as it is. */
  lemma StripUnchanged(m: string)
    requires |m| > 0 && !IsSpace(m[0]) && !IsSpace(m[|m| - 1])
    ensures Strip(m) == m
  {
    assert StripLeft(m) == m;
  }

  /** Stripping keeps a contiguous middle part and removes only white space. */
  lemma StripSpan(s: string) returns (lo: nat, hi: nat)
    ensures lo <= hi <= |s| && Strip(s) == s[lo..hi]
    ensures forall i :: 0 <= i < lo ==> IsSpace(s[i])
    ensures forall i :: hi <= i < |s| ==> IsSpace(s[i])
  {
    var l := StripLeft(s);
    StripLeftSpan(s);
    StripRightSpan(l);
    lo := |s| - |l|;
    hi := lo + |StripRight(l)|;
    forall i | hi <= i < |s|
      ensures IsSpace(s[i])
    {
      assert s[i] == l[i - lo];
    }
  }

  /** Plain digits form a single group, worth their base-10 value. */
  lemma PlainDigitGroups(s: string)
    requires |s| > 0 && AllDigits(s)
    ensures DigitGroups(s) && Without(s, '_') == s && GroupsValue(s) == DigitsValue(s)
  {
    assert '_' !in s;
    WithoutAbsent(s, '_');
  }

  /** A plain string of decimal digits parses to its base-10 value. */
  lemma ParseDigits(s: string)
    requires 0 < |s| <= MaxStrDigits && AllDigits(s)
    ensures ParseInt(s) == Some(DigitsValue(s))
  {
    StripUnchanged(s);
    assert SignedDigits(s) == s;
    PlainDigitGroups(s);
  }

  /** A leading minus sign negates the value. */
  lemma ParseNegative(s: string)
    requires 0 < |s| <= MaxStrDigits && AllDigits(s)
    ensures ParseInt("-" + s) == Some(-(DigitsValue(s) as int))
  {
    MinusStrip(s);
    MinusDigits(s);
  }

  lemma MinusStrip(s: string)
    requires |s| > 0 && AllDigits(s)
    ensures Strip("-" + s) == "-" + s
  {
    var m := "-" + s;
    assert m[|m| - 1] == s[|s| - 1];
    StripUnchanged(m);
  }

  lemma {:induction false} MinusDigits(s: string)
    requires 0 < |s| <= MaxStrDigits && AllDigits(s)
    ensures ParseStripped("-" + s) == Some(-(DigitsValue(s) as int))
  {
    PlainDigitGroups(s);
    ParseMinus(s);
  }

  /** A minus sign in front of digit groups gives their value negated. */
  lemma ParseMinus(digits: string)
    requires DigitGroups(digits) && |Without(digits, '_')| <= MaxStrDigits
    ensures ParseStripped("-" + digits) == Some(-(GroupsValue(digits) as int))
  {
    var t := "-" + digits;
    assert t[0] == '-' && t[1..] == digits;
    assert SignedDigits(t) == digits;
  }

  predicate AllSpace(s: string)
  {
    forall i :: 0 <= i < |s| ==> IsSpace(s[i])
  }

  lemma {:induction false} StripLeftSpaces(pre: string, x: string)
    requires AllSpace(pre) && |x| > 0 && !IsSpace(x[0])
    ensures StripLeft(pre + x) == x
    decreases |pre|
  {
    if |pre| == 0 {
      assert pre + x == x;
    } else {
      assert (pre + x)[0] == pre[0];
      assert (pre + x)[1..] == pre[1..] + x;
      StripLeftSpaces(pre[1..], x);
    }
  }

  lemma {:induction false} StripRightSpaces(x: string, post: string)
    requires AllSpace(post) && |x| > 0 && !IsSpace(x[|x| - 1])
    ensures StripRight(x + post) == x
    decreases |post|
  {
    var xp := x + post;
    if |post| == 0 {
      assert xp == x;
    } else {
      assert xp[|xp| - 1] == post[|post| - 1];
      assert xp[..|xp| - 1] == x + post[..|post| - 1];
      StripRightSpaces(x, post[..|post| - 1]);
    }
  }

  /** White space around the digits, such as a cell's trailing newline, is ignored. */
  lemma ParseSpaced(pre: string, digits: string, post: string)
    requires AllSpace(pre) && AllSpace(post)
    requires 0 < |digits| <= MaxStrDigits && AllDigits(digits)
    ensures ParseInt(pre + digits + post) == Some(DigitsValue(digits))
  {
    assert pre + digits + post == pre + (digits + post);
    assert (digits + post)[0] == digits[0];
    StripLeftSpaces(pre, digits + post);
    StripRightSpaces(digits, post);
    assert Strip(pre + digits + post) == digits;
    StripUnchanged(digits);
    ParseDigits(digits);
  }

  /** Text with no minus sign never parses to a negative number. */
  lemma ParseNoMinus(s: string)
    requires '-' !in s
    ensures ParseInt(s).Some? ==> ParseInt(s).value >= 0
  {
    var lo, hi := StripSpan(s);
    var t := Strip(s);
    if |t| > 0 {
      assert t[0] == s[lo];
    }
  }

  /** A numeral longer than the digit limit is refused, whatever its value. */
  lemma ParseTooLong(s: string)
    requires |s| > MaxStrDigits && AllDigits(s)
    ensures ParseInt(s) == None
  {
    StripUnchanged(s);
    assert SignedDigits(s) == s;
    PlainDigitGroups(s);
  }

  /** Characters `int()` can accept. */
  predicate IntChar(ch: char)
  {
    IsSpace(ch) || IsDigit(ch) || ch == '+' || ch == '-' || ch == '_'
  }

  /** Any other character anywhere in the text makes `int()` raise. */
  lemma ParseIntRejects(s: string, i: nat)
    requires i < |s| && !IntChar(s[i])
    ensures ParseInt(s) == None
  {
    var lo, hi := StripSpan(s);
    var t := Strip(s);
    var d := SignedDigits(t);
    assert lo <= i < hi;
    var j := i - lo;
    assert t[j] == s[i];
    var k := if |d| == |t| then j else j - 1;
    assert 0 <= k < |d| && d[k] == s[i];
    assert !DigitGroups(d);
  }

  /** The shortest decimal numeral of `n`. */
  function DecimalString(n: nat): (s: string)
    ensures |s| > 0 && AllDigits(s)
    decreases n
  {
    if n < 10 then [DigitChar(n)] else DecimalString(n / 10) + [DigitChar(n % 10)]
  }

  /** A number below `10^k` has at most `k` digits. */
  lemma {:induction false} DecimalStringLength(n: nat, k: nat)
    requires k > 0 && n < Pow10(k)
    ensures |DecimalString(n)| <= k
    decreases n
  {
    if n >= 10 {
      assert n / 10 < Pow10(k - 1);
      DecimalStringLength(n / 10, k - 1);
    }
  }

  /** Every 64-bit value has at most 19 digits. */
  lemma Int64Digits(n: nat)
    requires n <= Int64Max
    ensures |DecimalString(n)| <= 19
  {
    assert Pow10(4) == 10_000;
    assert Pow10(8) == 100_000_000;
    assert Pow10(12) == 1_000_000_000_000;
    assert Pow10(16) == 10_000_000_000_000_000;
    assert Pow10(19) == 10_000_000_000_000_000_000;
    DecimalStringLength(n, 19);
  }

  /** Three more digits for every factor of a thousand. */
  lemma DecimalStringThousands(n: nat)
    requires n >= 1000
    ensures |DecimalString(n)| == |DecimalString(n / 1000)| + 3
  {
    assert n / 10 / 10 == n / 100 && n / 100 / 10 == n / 1000;
    assert |DecimalString(n)| == |DecimalString(n / 10)| + 1;
    assert |DecimalString(n / 10)| == |DecimalString(n / 100)| + 1;
    assert |DecimalString(n / 100)| == |DecimalString(n / 1000)| + 1;
  }

  lemma {:induction false} DecimalStringValue(n: nat)
    ensures DigitsValue(DecimalString(n)) == n
    decreases n
  {
    var s := DecimalString(n);
    if n >= 10 {
      DecimalStringValue(n / 10);
      assert s[..|s| - 1] == DecimalString(n / 10);
    }
  }

  /** Three digits with leading zeros, the group after a thousands comma. */
  function ThreeDigits(k: nat): (s: string)
    requires k < 1000
    ensures |s| == 3 && AllDigits(s) && DigitsValue(s) == k
  {
    var a, b, c := k / 100, k / 10 % 10, k % 10;
    var s := [DigitChar(a), DigitChar(b), DigitChar(c)];
    assert s[..2][..1] == s[..1] && s[..1][..0] == [];
    assert DigitsValue(s[..1]) == a;
    assert DigitsValue(s[..2]) == a * 10 + b;
    assert DigitsValue(s) == (a * 10 + b) * 10 + c;
    s
  }

  /** `n` written the way the GDP table writes it: digits grouped by three with commas. */
  function Grouped(n: nat): string
    decreases n
  {
    if n < 1000 then DecimalString(n) else Grouped(n / 1000) + "," + ThreeDigits(n % 1000)
  }

  /** Deleting the commas of a grouped numeral leaves a plain numeral of the same value. */
  lemma {:induction false} GroupedDigits(n: nat)
    ensures |Without(Grouped(n), ',')| > 0 && AllDigits(Without(Grouped(n), ','))
    ensures DigitsValue(Without(Grouped(n), ',')) == n
    ensures |Without(Grouped(n), ',')| == |DecimalString(n)|
    decreases n
  {
    if n < 1000 {
      DecimalStringValue(n);
      assert ',' !in DecimalString(n);
      WithoutAbsent(DecimalString(n), ',');
    } else {
      var hi, lo := Grouped(n / 1000), ThreeDigits(n % 1000);
      GroupedDigits(n / 1000);
      var w := Without(hi, ',');
      WithoutGroup(hi, lo);
      DigitsValueAppend(w, lo);
      DecimalStringThousands(n);
      assert DigitsValue(w + lo) == (n / 1000) * 1000 + n % 1000 by {
        assert Pow10(3) == 1000;
      }
    }
  }

  /** The comma in front of a digit group disappears and nothing else does. */
  lemma WithoutGroup(hi: string, lo: string)
    requires AllDigits(lo)
    ensures Without(hi + "," + lo, ',') == Without(hi, ',') + lo
  {
    var comma := ",";
    assert Without(comma, ',') == "" by {
      assert comma[1..] == "";
    }
    WithoutAppend(hi, comma, ',');
    var head := Without(hi + comma, ',');
    assert head == Without(hi, ',');
    assert forall i :: 0 <= i < |lo| ==> lo[i] != ',';
    WithoutAbsent(lo, ',');
    WithoutAppend(hi + comma, lo, ',');
  }

  /** Comma removal followed by `int()` recovers every grouped figure within the digit limit. */
  lemma GroupedRoundTrip(n: nat)
    requires |DecimalString(n)| <= MaxStrDigits
    ensures ParseInt(Without(Grouped(n), ',')) == Some(n)
  {
    GroupedDigits(n);
    ParseDigits(Without(Grouped(n), ','));
  }

  /** Bounds of the 64-bit integer column `astype(int)` produces. */
  const Int64Min: int := -0x8000_0000_0000_0000
  const Int64Max: int := 0x7FFF_FFFF_FFFF_FFFF

  predicate InInt64(x: int)
  {
    Int64Min <= x <= Int64Max
  }

  /**
    `millions / 1000` rounded to two decimals, as a whole number of hundredths
    of a billion: `millions / 10` rounded to the nearest integer, ties to the
    even neighbour.
   */
  function HundredthsOfBillion(millions: int): (h: int)
    ensures -5 <= 10 * h - millions <= 5
    ensures (10 * h - millions == 5 || 10 * h - millions == -5) ==> h % 2 == 0
  {
    var q, rem := millions / 10, millions % 10;
    if rem < 5 then q
    else if rem > 5 then q + 1
    else if q % 2 == 0 then q
    else q + 1
  }

  /** The rounding contract pins the result down: no other value is as close, or as even on a tie. */
  lemma HundredthsUnique(millions: int, h: int)
    requires -5 <= 10 * h - millions <= 5
    requires (10 * h - millions == 5 || 10 * h - millions == -5) ==> h % 2 == 0
    ensures h == HundredthsOfBillion(millions)
  {
  }

  /** A larger figure in millions never gives a smaller figure in billions. */
  lemma HundredthsMonotone(a: int, b: int)
    requires a <= b
    ensures HundredthsOfBillion(a) <= HundredthsOfBillion(b)
  {
  }

  /** Non-negative figures stay non-negative. */
  lemma HundredthsNonNegative(millions: int)
    requires millions >= 0
    ensures HundredthsOfBillion(millions) >= 0
  {
  }

}

=== FILE: pipeline.dfy ===
/**
  The script's run, reduced to its data flow: extract, transform, replace the
  table in the store, then run the `>= 100` query on what was stored.
 */
module Pipeline {
  import opened Wrappers
  import opened Html
  import opened Extraction
  import opened Transformation
  import opened Loading

  datatype EtlError =
    | ExtractFailed(extractError: ExtractError)
    | TransformFailed(transformError: TransformError)
    | LoadFailed(loadError: LoadError)

  /** The store after the load and the rows the query returned. */
  datatype EtlRun = EtlRun(database: Database, shown: seq<Record>)

  function RunEtl(doc: Document, db: Database): (r: Result<EtlRun, EtlError>)
    ensures |doc| <= DataBody ==> r == Failure(ExtractFailed(MissingTable(|doc|)))
    ensures Extract(doc).Failure? ==> r == Failure(ExtractFailed(Extract(doc).error))
    ensures Shadowed(db, TableName) ==> r.Failure?
    ensures r.Success? ==>
      && TableName in r.value.database
      && r.value.database.Keys == db.Keys + {TableName}
      && (forall t :: t in db && t != TableName ==> r.value.database[t] == db[t])
      && (forall x :: x in r.value.shown ==>
            x in r.value.database[TableName] && x.gdpHundredths >= QueryThreshold)
  {
    match Extract(doc)
    case Failure(e) => Failure(ExtractFailed(e))
    case Success(raws) =>
      match Transform(raws)
      case Failure(e) => Failure(TransformFailed(e))
      case Success(records) =>
        match LoadReplace(db, TableName, records)
        case Failure(e) => Failure(LoadFailed(e))
        case Success(db') => Success(EtlRun(db', AtLeast100(db'[TableName])))
  }

  /** After a successful run the table holds one row per qualifying row of the
      page's third body, in document order, named by that row's link, with the
      converted figure of its third cell; the query shows exactly the stored
      rows of at least 100 billion. */
  lemma {:induction false} RunEtlTable(doc: Document, db: Database)
    requires RunEtl(doc, db).Success?
    ensures |doc| > DataBody
    ensures var stored := RunEtl(doc, db).value.database[TableName];
      var idx := QualifyingRows(doc[DataBody]);
      && |stored| == |idx|
      && (forall k :: 0 <= k < |idx| ==>
            && idx[k] < |doc[DataBody]|
            && Qualifies(doc[DataBody][idx[k]])
            && |doc[DataBody][idx[k]][0].anchor.value.contents| > 0
            && |doc[DataBody][idx[k]][2].contents| > 0
            && stored[k].country == doc[DataBody][idx[k]][0].anchor.value.contents[0]
            && ConvertGdp(doc[DataBody][idx[k]][2].contents[0]) == Success(stored[k].gdpHundredths))
      && (forall k, l :: 0 <= k < l < |idx| ==> idx[k] < idx[l])
      && (forall x :: multiset(RunEtl(doc, db).value.shown)[x] ==
            if x.gdpHundredths >= QueryThreshold then multiset(stored)[x] else 0)
  {
    var raws := Extract(doc).value;
    var records := Transform(raws).value;
    var idx := QualifyingRows(doc[DataBody]);
    assert Picks(doc[DataBody], idx, raws);
    assert RunEtl(doc, db).value.database[TableName] == records by {
      assert LoadReplace(db, TableName, records).Success?;
    }
    forall k | 0 <= k < |idx|
      ensures ConvertGdp(doc[DataBody][idx[k]][2].contents[0]) == Success(records[k].gdpHundredths)
    {
      assert Yields(doc[DataBody][idx[k]], raws[k]);
    }
  }
}

=== FILE: scenarios.dfy ===
/** Concrete pages and cells, and what the model gives on them. */
module Scenarios {
  import opened Wrappers
  import opened Html
  import opened Numbers
  import opened Extraction
  import opened Transformation
  import opened Loading
  import opened Pipeline

  /** "21,427,700" million is 21427.70 billion. */
  lemma ConvertLargest()
    ensures ConvertGdp("21,427,700") == Success(2142770)
  {
    GroupedLargest();
    ConvertGrouped(21427700);
  }

  lemma GroupedLargest()
    ensures Grouped(21427700) == "21,427,700"
  {
    assert DecimalString(21) == "21" by {
      assert DecimalString(2) == "2";
    }
    assert ThreeDigits(427) == "427";
    assert ThreeDigits(700) == "700";
    assert Grouped(21427) == "21,427";
  }

  /** "100,000" million is 100.00 billion, which the query keeps. */
  lemma ConvertThreshold()
    ensures ConvertGdp("100,000") == Success(10000)
    ensures 10000 >= QueryThreshold
  {
    assert DecimalString(100) == "100" by {
      assert DecimalString(10) == "10";
    }
    assert ThreeDigits(0) == "000";
    assert Grouped(100000) == "100,000";
    ConvertGrouped(100000);
  }

  /** "50,000" million is 50.00 billion, which the query drops. */
  lemma ConvertBelowThreshold()
    ensures ConvertGdp("50,000") == Success(5000)
    ensures 5000 < QueryThreshold
  {
    assert DecimalString(50) == "50" by {
      assert DecimalString(5) == "5";
    }
    assert ThreeDigits(0) == "000";
    assert Grouped(50000) == "50,000";
    ConvertGrouped(50000);
  }

  /** The placeholder cell itself cannot be converted. */
  lemma ConvertPlaceholder()
    ensures ConvertGdp(NoData).Failure?
  {
    ConvertRejects(NoData, 0);
  }

  /** Ties go to the even hundredth: 5 million is 0.00 billion, 15 million 0.02. */
  lemma RoundingTies()
    ensures HundredthsOfBillion(5) == 0
    ensures HundredthsOfBillion(15) == 2
    ensures HundredthsOfBillion(-5) == 0
    ensures HundredthsOfBillion(1015) == 102
  {
  }

  function Linked3(country: string, gdp: seq<string>): Row
  {
    [Cell(Some(Anchor([country])), []), Cell(None, []), Cell(None, gdp)]
  }

  /** A footnote row without a link is skipped however short it is. */
  lemma UnlinkedRowSkipped()
    ensures InspectRow([Cell(None, ["Somewhere*"]), Cell(None, [NoData])]) == Skip
  {
  }

  /** The placeholder as the third cell's child excludes the row ... */
  lemma PlaceholderRowSkipped()
    ensures InspectRow(Linked3("Nowhere", [NoData])) == Skip
  {
  }

  /** ... but a child that only contains the dash inside longer text does not. */
  lemma EmbeddedDashKept()
    ensures InspectRow(Linked3("Somewhere", ["1\U{2014}2"])) == Keep(RawRecord("Somewhere", "1\U{2014}2"))
  {
    assert "1\U{2014}2" != NoData;
  }

  /** A linked row with two cells raises instead of being skipped. */
  lemma ShortLinkedRowRaises()
    ensures ExtractRows([[Cell(Some(Anchor(["X"])), []), Cell(None, [])]]) == Failure(BadRow(0, TooFewCells))
  {
    var rows: seq<Row> := [[Cell(Some(Anchor(["X"])), []), Cell(None, [])]];
    assert rows[..0] == [];
  }

  /** On a page, that short linked row makes the whole extraction fail. */
  lemma ShortLinkedRowFailsExtract()
    ensures Extract([[], [], [[Cell(Some(Anchor(["X"])), []), Cell(None, [])]]]).Failure?
  {
    var doc: Document := [[], [], [[Cell(Some(Anchor(["X"])), []), Cell(None, [])]]];
    assert Broken(doc[DataBody][0]);
  }

  /** A page with only two bodies fails before any row is read. */
  lemma TwoBodiesFail(db: Database)
    ensures RunEtl([[], []], db) == Failure(ExtractFailed(MissingTable(2)))
  {
  }

  /** A store that already holds the table spelled in lower case makes the load raise. */
  lemma CaseVariantClashes(records: seq<Record>)
    ensures LoadReplace(map["countries_by_gdp" := []], TableName, records) == Failure(NameTaken)
  {
    var t := "countries_by_gdp";
    var db: Database := map[t := []];
    assert FoldCase(t) == FoldCase(TableName);
    assert t in db && t != TableName;
  }

  /** A third body with a header row, three countries, a footnote row and a
      country without data. */
  function SampleBody(): Body
  {
    [ [],
      Linked3("United States", ["21,427,700"]),
      Linked3("Tuvalu", ["100,000"]),
      Linked3("Small", ["50,000"]),
      [Cell(None, ["Somewhere*"]), Cell(None, [NoData])],
      Linked3("Nowhere", [NoData]) ]
  }

  lemma SampleExtract()
    ensures ExtractRows(SampleBody()) == Success([
      RawRecord("United States", "21,427,700"),
      RawRecord("Tuvalu", "100,000"),
      RawRecord("Small", "50,000")])
  {
    var us, tv, sm := RawRecord("United States", "21,427,700"), RawRecord("Tuvalu", "100,000"), RawRecord("Small", "50,000");
    var b := SampleBody();
    var p0: seq<Row> := [];
    var p1 := p0 + [b[0]];
    var p2 := p1 + [b[1]];
    var p3 := p2 + [b[2]];
    var p4 := p3 + [b[3]];
    var p5 := p4 + [b[4]];
    var p6 := p5 + [b[5]];
    assert p1[..0] == p0 && p2[..1] == p1 && p3[..2] == p2;
    assert p4[..3] == p3 && p5[..4] == p4 && p6[..5] == p5;
    assert p1[0] == b[0] && p2[1] == b[1] && p3[2] == b[2];
    assert p4[3] == b[3] && p5[4] == b[4] && p6[5] == b[5];
    assert InspectRow(b[0]) == Skip;
    assert ExtractRows(p1) == Success([]);
    assert InspectRow(b[1]) == Keep(us);
    assert [] + [us] == [us];
    assert ExtractRows(p2) == Success([us]);
    assert InspectRow(b[2]) == Keep(tv);
    assert [us] + [tv] == [us, tv];
    assert ExtractRows(p3) == Success([us, tv]);
    assert InspectRow(b[3]) == Keep(sm);
    assert [us, tv] + [sm] == [us, tv, sm];
    assert ExtractRows(p4) == Success([us, tv, sm]);
    assert InspectRow(b[4]) == Skip;
    assert ExtractRows(p5) == Success([us, tv, sm]);
    assert InspectRow(b[5]) == Skip;
    assert p6 == b;
  }

  /** Three rows whose figures convert give three records, in order. */
  lemma TransformThree(a: RawRecord, b: RawRecord, c: RawRecord, ha: int, hb: int, hc: int)
    requires ConvertGdp(a.gdpMillions) == Success(ha)
    requires ConvertGdp(b.gdpMillions) == Success(hb)
    requires ConvertGdp(c.gdpMillions) == Success(hc)
    ensures Transform([a, b, c]) ==
      Success([Record(a.country, ha), Record(b.country, hb), Record(c.country, hc)])
  {
    var raws := [a, b, c];
    var r := Transform(raws);
    assert r.Success?;
    var v := r.value;
    assert |v| == 3;
    assert v[0] == Record(a.country, ha);
    assert v[1] == Record(b.country, hb);
    assert v[2] == Record(c.country, hc);
    assert v == [Record(a.country, ha), Record(b.country, hb), Record(c.country, hc)];
  }

  lemma SampleTransform()
    ensures Transform([
      RawRecord("United States", "21,427,700"),
      RawRecord("Tuvalu", "100,000"),
      RawRecord("Small", "50,000")]) ==
      Success([Record("United States", 2142770), Record("Tuvalu", 10000), Record("Small", 5000)])
  {
    ConvertLargest();
    ConvertThreshold();
    ConvertBelowThreshold();
    TransformThree(
      RawRecord("United States", "21,427,700"),
      RawRecord("Tuvalu", "100,000"),
      RawRecord("Small", "50,000"),
      2142770, 10000, 5000);
  }

  lemma SampleQuery()
    ensures AtLeast100([Record("United States", 2142770), Record("Tuvalu", 10000), Record("Small", 5000)])
      == [Record("United States", 2142770), Record("Tuvalu", 10000)]
  {
    var records := [Record("United States", 2142770), Record("Tuvalu", 10000), Record("Small", 5000)];
    assert records[1..][1..][1..] == [];
    assert records[1..][1..] == [records[2]];
    assert records[1..] == [records[1], records[2]];
  }

  /** The whole run on a page whose third body is `SampleBody`: three rows
      stored, the two of at least 100 billion shown. */
  lemma SampleRun(db: Database)
    requires !Shadowed(db, TableName)
    ensures var doc: Document := [[], [], SampleBody()];
      && RunEtl(doc, db).Success?
      && RunEtl(doc, db).value.database[TableName] ==
           [Record("United States", 2142770), Record("Tuvalu", 10000), Record("Small", 5000)]
      && RunEtl(doc, db).value.shown ==
           [Record("United States", 2142770), Record("Tuvalu", 10000)]
  {
    var doc: Document := [[], [], SampleBody()];
    SampleExtract();
    SampleTransform();
    SampleQuery();
    assert doc[DataBody] == SampleBody();
  }
}

=== FILE: transform.dfy ===
/**
  The transform step: every raw GDP text becomes a figure in billions rounded to
  two decimals. The column is converted as a whole, so one bad cell fails the
  step instead of dropping its row.
 */
module Transformation {
  import opened Wrappers
  import opened Numbers
  import opened Extraction

  /** A transformed row. `gdpHundredths` is `GDP_USD_billions` times 100, exactly. */
  datatype Record = Record(country: string, gdpHundredths: int)

  /** Why one GDP text cannot be converted. */
  datatype GdpFault =
    | NotAnInteger(text: string)   // `int()` raises ValueError on the comma-free text
    | OutOfRange(value: int)       // the integer does not fit the 64-bit column

  /** The first row, in table order, whose GDP text cannot be converted. */
  datatype TransformError = TransformError(row: nat, fault: GdpFault)

  /** One GDP cell: delete the commas, parse as a 64-bit integer number of
      millions, rescale to hundredths of a billion. */
  function ConvertGdp(text: string): Result<int, GdpFault>
  {
    var digits := Without(text, ',');
    match ParseInt(digits)
    case None => Failure(NotAnInteger(digits))
    case Some(millions) =>
      if !InInt64(millions) then Failure(OutOfRange(millions))
      else Success(HundredthsOfBillion(millions))
  }

  /** A cell converts exactly when its comma-free text is a 64-bit integer,
      and then to that many millions within half a hundredth of a billion. */
  lemma ConvertGdpSpec(text: string)
    ensures ConvertGdp(text).Success? <==>
      ParseInt(Without(text, ',')).Some? && InInt64(ParseInt(Without(text, ',')).value)
    ensures ConvertGdp(text).Success? ==>
      -5 <= 10 * ConvertGdp(text).value - ParseInt(Without(text, ',')).value <= 5
    ensures ConvertGdp(text).Failure? && ConvertGdp(text).error.NotAnInteger? ==>
      ConvertGdp(text).error.text == Without(text, ',')
  {
  }

  /** A figure written with thousands commas converts to its rounded value in billions. */
  lemma ConvertGrouped(n: nat)
    requires n <= Int64Max
    ensures ConvertGdp(Grouped(n)) == Success(HundredthsOfBillion(n))
  {
    Int64Digits(n);
    GroupedRoundTrip(n);
  }

  /** Text holding anything but digits, commas, signs, underscores and white
      space cannot be converted. */
  lemma ConvertRejects(text: string, i: nat)
    requires i < |text| && !IntChar(text[i]) && text[i] != ','
    ensures ConvertGdp(text).Failure? && ConvertGdp(text).error.NotAnInteger?
  {
    var digits := Without(text, ',');
    WithoutKeeps(text, ',');
    assert text[i] in multiset(digits);
    var j :| 0 <= j < |digits| && digits[j] == text[i];
    ParseIntRejects(digits, j);
  }

  /** A figure with no minus sign converts to a non-negative number of billions. */
  lemma ConvertNonNegative(text: string)
    requires '-' !in text
    ensures ConvertGdp(text).Success? ==> ConvertGdp(text).value >= 0
  {
    var digits := Without(text, ',');
    WithoutKeeps(text, ',');
    assert '-' !in multiset(digits);
    ParseNoMinus(digits);
  }

  /** `transform`: the GDP column rewritten row by row; row count, order and
      countries are kept. */
  function Transform(raws: seq<RawRecord>): (r: Result<seq<Record>, TransformError>)
    ensures r.Success? <==> forall i :: 0 <= i < |raws| ==> ConvertGdp(raws[i].gdpMillions).Success?
    ensures r.Success? ==>
      && |r.value| == |raws|
      && forall i :: 0 <= i < |raws| ==>
           && r.value[i].country == raws[i].country
           && ConvertGdp(raws[i].gdpMillions) == Success(r.value[i].gdpHundredths)
    ensures r.Failure? ==>
      && r.error.row < |raws|
      && ConvertGdp(raws[r.error.row].gdpMillions) == Failure(r.error.fault)
      && forall i :: 0 <= i < r.error.row ==> ConvertGdp(raws[i].gdpMillions).Success?
  {
    var converted := seq(|raws|, i requires 0 <= i < |raws| => ConvertGdp(raws[i].gdpMillions));
    assert forall i :: 0 <= i < |raws| ==> converted[i] == ConvertGdp(raws[i].gdpMillions);
    Gather(raws, converted)
  }

  /** Pairs each country with its converted figure, or stops at the first
      conversion that failed. */
  function Gather(raws: seq<RawRecord>, converted: seq<Result<int, GdpFault>>): (r: Result<seq<Record>, TransformError>)
    requires |converted| == |raws|
    ensures r.Success? <==> forall i :: 0 <= i < |raws| ==> converted[i].Success?
    ensures r.Success? ==>
      && |r.value| == |raws|
      && forall i :: 0 <= i < |raws| ==>
           && r.value[i].country == raws[i].country
           && converted[i] == Success(r.value[i].gdpHundredths)
    ensures r.Failure? ==>
      && r.error.row < |raws|
      && converted[r.error.row] == Failure(r.error.fault)
      && forall i :: 0 <= i < r.error.row ==> converted[i].Success?
    decreases |raws|
  {
    if |raws| == 0 then Success([])
    else
      var last := |raws| - 1;
      assert forall i :: 0 <= i < last ==> raws[..last][i] == raws[i] && converted[..last][i] == converted[i];
      match Gather(raws[..last], converted[..last])
      case Failure(e) => Failure(e)
      case Success(done) =>
        match converted[last]
        case Failure(fault) => Failure(TransformError(last, fault))
        case Success(h) => Success(done + [Record(raws[last].country, h)])
  }
}

=== FILE: wrappers.dfy ===
/** Failure-carrying datatypes shared by every stage of the pipeline. */
module Wrappers {

  /** A value that may be absent (a Python `None`). */
  datatype Option<+T> = None | Some(value: T)

  /** The outcome of a stage that can raise: its value, or the error it raises. */
  datatype Result<+R, +E> = Success(value: R) | Failure(error: E)
}
